=== FILE: README.md ===
# Super-resolution resolver — a Dafny model

This project models the decision logic of the image upscaler's OpenCV super-resolver
(`upscalers/opencv_sr.py`). The resolver has three parts:

- **The model registry.** `SUPPORTED_MODELS` maps each model family (EDSR, ESPCN, FSRCNN, LapSRN)
  to its OpenCV name, its default scale and the scales it serves natively.
  `DEFAULT_MODEL_ORDER` fixes the priority in which the families are searched.
- **The weight-file lookup** (`_find_model_path`). The first pass looks for a family that serves
  the requested scale natively and whose `NAME_x{scale}.pb` file exists. The second pass looks for
  any family whose `NAME_x{default}.pb` file exists. The first hit wins in each pass.
- **The `upscale` decision tree.** It tries four branches in order: the superres runtime is
  missing, no model was found, the model failed, or the model ran. When the model ran at a scale
  other than the requested one, a reconciliation resize follows. Each branch returns an image and
  its own method label. The success label names the family and the requested scale only. It does
  not record whether a resize ran, so an exact-scale model and a default-scale model followed by a
  resize can give the same label (`Resolver.ExactAndReconciledShareLabel`).

Modelling choices:

- The filesystem is a `set<string>` of the paths `os.path.isfile` accepts.
- `os.path.join` is the POSIX `posixpath.join`.
- An image is reduced to its dimensions `Dims(w, h)`.
- The lookup (`Lookup.FindModelPath`) takes the registry as a value. It requires only that every
  name in the order has a table entry; otherwise `SUPPORTED_MODELS[name]` would raise `KeyError`.
  `Resolver.Upscale` uses the shipped table, as the source does.
- Two outside facts are boolean parameters of `Upscale`. `runtimeAvailable` says whether
  `from cv2 import dnn_superres` succeeds. `srOk` says whether creating, loading, configuring and
  running the model, and the reconciliation resize, all complete without raising.
- `cv2.resize` to an explicit size gives that size.
- `sr.upsample` with a model set to scale `m` is ASSUMED to give `(w*m, h*m)`. The model cannot
  look inside this foreign call, so this is an assumption, not a proved fact.
- `str.upper()` and `str()` on integers are written out (`Text.Upper`, `Text.IntToDecimal`).
  Each comes with a parser that undoes it. Those parsers show that weight-file names and method
  labels lose no information.

Modules: `Wrappers` (Option), `Text`, `ModelRegistry`, `WeightFiles`, `Lookup`, `Labels`,
`Resolver`, and `Scenarios` (worked cases on a 100x100 image).

## Model

| member | source | states |
|---|---|---|
| Text.UpperOfLowerWord | upscalers/opencv_sr.py:32 | `name.upper()` of a registry key is a word of upper-case letters with the same length as the key |
| Text.LowerUpperInverse | upscalers/opencv_sr.py:32 | on registry keys `upper()` can be undone by lower-casing, so no two keys give the same upper-case name |
| Text.Upper | upscalers/opencv_sr.py:32 | `str.upper()` on the ASCII range: each lower-case letter becomes its upper-case letter, and every other character is unchanged (no contract; its partners are `Text.UpperOfLowerWord` and `Text.LowerUpperInverse`) |
| Text.IntToDecimal | upscalers/opencv_sr.py:32 | `str()` on an integer is non-empty; it starts with `-` exactly when the integer is negative, and the rest is decimal digits (its partner is `Text.IntRoundTrip`) |
| Text.NatToDecimal | upscalers/opencv_sr.py:32 | `str()` of a non-negative scale is a non-empty string of digits; it starts with `0` only for zero |
| Text.DecimalRoundTrip | upscalers/opencv_sr.py:32 | reading the digits of `str(n)` back gives `n` |
| Text.IntRoundTrip | upscalers/opencv_sr.py:39 | `str()` of any integer scale, with a minus sign for negatives, parses back to that integer, so distinct scales give distinct file names and labels |
| ModelRegistry.SupportedWellFormed | upscalers/opencv_sr.py:10-18 | the shipped table is sound: the order lists exactly the table's keys, each once; every key is a lower-case word; every default scale is positive and is one of its family's allowed scales |
| ModelRegistry.SupportedScalesPositive | upscalers/opencv_sr.py:12-15 | every scale the shipped table allows is positive |
| ModelRegistry.SupportedDefaultsArePowersOfTwo | upscalers/opencv_sr.py:12-15 | every default scale is 4 or 8, both powers of two |
| WeightFiles.JoinPath | upscalers/opencv_sr.py:33 | POSIX `os.path.join(dir, file)` (no contract; its shape is stated by `WeightFiles.JoinPathShape`) |
| WeightFiles.JoinPathShape | upscalers/opencv_sr.py:33 | an absolute file name replaces the directory. A relative one gives the directory, then exactly one `/` unless the directory is empty or already ends in `/`, then the file name; the length is fixed accordingly, so these facts determine the result |
| WeightFiles.WeightFileName | upscalers/opencv_sr.py:32-39 | the file name `NAME_x{scale}.pb`: the upper-cased key, `_x`, `str(scale)` and `.pb` (no contract; its partner is `WeightFiles.WeightFileNameRoundTrip`) |
| WeightFiles.CandidatePath | upscalers/opencv_sr.py:32-40 | the path `os.path.isfile` tests: the weight file name joined onto the models directory (no contract; its partner is `WeightFiles.CandidatePathInjective`) |
| WeightFiles.WeightFileNameRoundTrip | upscalers/opencv_sr.py:32 | `NAME_x{scale}.pb` can be split back into the registry key and the scale |
| WeightFiles.JoinPathCancel | upscalers/opencv_sr.py:33 | joining two relative file names onto the same models directory gives the same path only if the names are equal |
| WeightFiles.CandidatePathInjective | upscalers/opencv_sr.py:32-34 | a candidate path determines the (family, scale) pair it was built from |
| WeightFiles.CandidatePathsDiffer | upscalers/opencv_sr.py:39-41 | different (family, scale) pairs are looked up at different paths |
| Lookup.ExactPass | upscalers/opencv_sr.py:28-35 | the first loop finds nothing exactly when no family from the start position on both allows the target and has its file; otherwise it returns the first such family, with the existing file's path, at the target scale |
| Lookup.DefaultPass | upscalers/opencv_sr.py:36-42 | the second loop finds nothing exactly when no default-scale file exists from the start position on; otherwise it returns the first family whose default-scale file exists, at its default scale |
| Lookup.FindModelPath | upscalers/opencv_sr.py:27-43 | the lookup returns `None` exactly when no candidate file of either pass exists. Any result is an existing file, at the path the naming convention gives for the returned family and scale. Its scale is either the target, served natively, or the family's default |
| Lookup.ExactHitWins | upscalers/opencv_sr.py:28-35 | if family `k` is the first in priority order with an exact hit, the lookup returns exactly `(order[k], its path, target)` |
| Lookup.DefaultHitWins | upscalers/opencv_sr.py:36-42 | if there is no exact hit and family `k` is the first whose default-scale file exists, the lookup returns exactly `(order[k], its path, default)` |
| Lookup.SoleExactFileFound | upscalers/opencv_sr.py:28-35 | in a well-formed registry, if the only file is a family's weights at a scale it serves natively, the lookup returns that family at that scale, whatever its place in the order |
| Lookup.SoleDefaultFileFound | upscalers/opencv_sr.py:28-42 | in a well-formed registry, if the only file is a family's default-scale weights and another scale is requested, the first pass finds nothing and the second returns that family at its default scale |
| Lookup.ScaleMatchesIffExactHit | upscalers/opencv_sr.py:27-43 | in a well-formed registry the returned scale equals the target if and only if some family has an exact hit; a second-pass result never has the target scale |
| Labels.Label | upscalers/opencv_sr.py:50-73 | the label of each branch, spelled as in the source; exactly the success label `OpenCV NAME x{scale}` starts with `OpenCV ` |
| Labels.LabelRoundTrip | upscalers/opencv_sr.py:45-73 | each of the four branch labels decodes back to the branch; a success label also decodes back to the family and the scale it names |
| Labels.FallbackLabelRoundTrip | upscalers/opencv_sr.py:45-73 | each of "Bicubic (no dnn_superres)", "Bicubic (no model)" and "Bicubic (sr failed)" decodes back to its own branch |
| Labels.ModelLabelRoundTrip | upscalers/opencv_sr.py:70 | `OpenCV NAME x{scale}` decodes back to the registry key and the scale it was built from |
| Labels.LabelInjective | upscalers/opencv_sr.py:45-73 | different branches, or different (family, scale) successes, never share a label |
| Resolver.Bicubic | upscalers/opencv_sr.py:75-78 | `_bicubic` gives `(w*scale, h*scale)`; pixel values are not modelled (no contract; it is the reference size that `Resolver.ReconcileRestoresScale` and `Resolver.Upscale` are checked against) |
| Resolver.Upsample | upscalers/opencv_sr.py:64 | ASSUMED output size of the foreign call `sr.upsample` at model scale `m`: `(w*m, h*m)`. This is an assumption about OpenCV, not a proved fact (no contract) |
| Resolver.ScaleSide | upscalers/opencv_sr.py:66-68 | `int(n * (scale / model_scale))` is the truncated quotient: `r*m <= n*scale < r*m + m` |
| Resolver.Reconcile | upscalers/opencv_sr.py:65-69 | the reconciliation resize to `(new_w, new_h)`, each side computed by `Resolver.ScaleSide` (no contract; its partner is `Resolver.ReconcileRestoresScale`) |
| Resolver.ReconcileRestoresScale | upscalers/opencv_sr.py:64-69 | resizing the `(w*m, h*m)` model output by `scale / m` with truncation gives exactly `(w*scale, h*scale)`; no pixel is lost |
| Resolver.ApplyModel | upscalers/opencv_sr.py:62-69 | the model branch (upsample, then resize only when the model scale differs) always outputs `(w*scale, h*scale)` |
| Resolver.SupportedFoundIsValid | upscalers/opencv_sr.py:57-66 | a lookup result over the shipped table names a registry key and has a positive scale, so `scale / model_scale` never divides by zero |
| Resolver.ModelLabelIsNoFallback | upscalers/opencv_sr.py:70 | the success label `OpenCV NAME x{scale}` is never one of the three fallback labels |
| Resolver.Upscale | upscalers/opencv_sr.py:45-78 | every branch returns an image of exactly `(w*scale, h*scale)` and returns normally. "Bicubic (no dnn_superres)" appears if and only if the runtime is missing. "Bicubic (no model)" appears if and only if the runtime is present and the lookup finds nothing. "Bicubic (sr failed)" appears if and only if a model was found and it failed. Every label decodes, and a success label names a registry family and the requested scale |
| Resolver.NoRuntimeIgnoresFiles | upscalers/opencv_sr.py:46-50 | without the superres runtime the result is the bicubic image with "Bicubic (no dnn_superres)", whatever files exist |
| Resolver.NoRuntimeMatchesEmptyDirectory | upscalers/opencv_sr.py:46-55 | a missing runtime gives the same image as an empty models directory; the empty directory is labelled "Bicubic (no model)", and the two labels differ |
| Resolver.SuccessLabelNamesRequestedScale | upscalers/opencv_sr.py:70 | when a model ran, the label decodes to the found family and the requested scale, not the scale the model ran at |
| Resolver.ReconcilesOnlyAfterDefaultPass | upscalers/opencv_sr.py:27-69 | the reconciliation resize runs if and only if no family has an exact-scale file, that is, exactly when the model came from the default-scale pass |
| Resolver.ResizedModelScaleIsPowerOfTwo | upscalers/opencv_sr.py:57-66 | when the model scale differs from the requested scale, so that the resize at lines 65-69 runs, the model scale is 4 or 8; `scale / model_scale` is then a dyadic rational that a float holds exactly |
| Resolver.SoleExactFileSelected | upscalers/opencv_sr.py:28-35 | if the only file is a family's weights at a scale it serves natively, that family is chosen at that scale and the output is `scale` times the input |
| Resolver.SoleDefaultFileReconciled | upscalers/opencv_sr.py:36-70 | if the only file is a family's default-scale weights and another scale is requested, that family runs at its default scale, the resize brings the output to `scale` times the input, and the label names the requested scale |
| Resolver.ExactAndReconciledShareLabel | upscalers/opencv_sr.py:27-70 | at scale 2, a directory with only `EDSR_x2.pb` is served at x2 with no resize, and one with only `EDSR_x4.pb` is served at x4 and then resized by 1/2. The two `upscale` results, image and label ("OpenCV EDSR x2"), are equal, so the label does not tell the two apart |
| Scenarios.EdsrWeightPath | upscalers/opencv_sr.py:32-33 | EDSR at x4 in directory `models` is looked up at `models/EDSR_x4.pb` |
| Scenarios.EdsrLabel | upscalers/opencv_sr.py:70 | the EDSR success label at a one-digit scale is `OpenCV EDSR x` followed by that digit |
| Scenarios.ExactScaleScenario | upscalers/opencv_sr.py:45-70 | with only `EDSR_x4.pb`, a 100x100 image at scale 4 becomes 400x400 with label "OpenCV EDSR x4" |
| Scenarios.DefaultScaleScenario | upscalers/opencv_sr.py:36-70 | with only `EDSR_x4.pb`, scale 6 picks EDSR at x4 and resizes 400x400 to 600x600, with label "OpenCV EDSR x6" |
| Scenarios.EmptyDirectoryScenario | upscalers/opencv_sr.py:52-55 | with no files, scale 3 gives the 300x300 bicubic image with label "Bicubic (no model)" |
| Scenarios.FailedModelScenario | upscalers/opencv_sr.py:59-73 | if the EDSR weights fail to load, the result is still the 400x400 bicubic image, with label "Bicubic (sr failed)" |

## Left out

- Pixel contents and the interpolation mathematics of `cv2.resize` and `sr.upsample` are not modelled. Only output dimensions are.
- Model loading and channel order are not modelled either. Success or failure of the whole model step is the single boolean `srOk`.
- Resolver.Upscale: the size guarantee for the model branch rests on an assumption. The output size of `sr.upsample` at model scale `m` is taken to be `(w*m, h*m)`.
- Float arithmetic is left out. The reconciliation size `int(n * (scale / model_scale))` is computed as the exact `n*scale / model_scale`. The resize runs only at a default scale, and every default scale is 4 or 8 (`Resolver.ResizedModelScaleIsPowerOfTwo`), so the float quotient is exact. The float result then agrees when both the upsampled side `w*model_scale` and the output side `w*scale` are below 2^53 pixels. Beyond that it can differ: for an input side of 2^52+1 at scale 6 with an x4 model, `int((w*4)*(6/4))` is 27021597764222984, while `w*6` is 27021597764222982.
- Integer overflow inside OpenCV for huge sizes is not modelled, because Dafny integers are unbounded.
- Resolver.Upscale: requires a non-empty image (width and height above zero). For an empty image, `cv2.resize` in `_bicubic` raises outside any `try`, and that error would escape `upscale`. The model does not represent that exception.
- Resolver.Upscale: also requires `scale > 0`. The source does not validate the scale; a non-positive scale is treated as a caller error.
- Logging calls (`logger.warning`, `logger.info`, `logger.exception`) are left out. They do not affect the result.
- The default argument `scale=4` is left out. Callers always pass the scale explicitly.
- The OpenCV calls `DnnSuperResImpl_create`, `readModel` and `setModel(opencv_name, model_scale)` are not modelled, and neither is the `opencv_name` they are given. Any failure in them, in `upsample` or in the resize is folded into the boolean `srOk`.
- Text.Upper: ASCII-only. It does not model Python's full Unicode case mapping. Every registry key is ASCII.
- WeightFiles.JoinPath: follows POSIX `posixpath.join`. Windows `ntpath.join` separators and drive letters are not modelled.
- `os.path.isfile` is modelled as membership in a set of paths. Symbolic links, permissions, and the file changing between the check and the load are not modelled.
- `ui/main_window.py`, `utils/image_ops.py`, `utils/logging_config.py`, `app.py` and `upscalers/_init_.py` are not part of this model. They are UI, format conversion, logging and entry-point glue.
- `upscalers/esrgan_stub.py` is not part of this model. It unconditionally raises `NotImplementedError`.

=== FILE: labels.dfy ===
/**
 The method label `upscale` returns beside the image. Each of its four branches
 has its own label, and the success label carries the model family and the
 requested scale; the parser shows that distinct strategies never share a label.
 The success label does not record the scale the model ran at, so it cannot tell
 an exact-scale model from a default-scale model followed by a resize.
 */
module Labels {
  import opened Wrappers
  import opened Text

  /** Which branch of `upscale` produced an image. */
  datatype Strategy =
    | NoRuntime                           // `cv2.dnn_superres` could not be imported
    | NoModel                             // `_find_model_path` found nothing
    | SrFailed                            // loading or applying the model raised
    | ByModel(name: string, scale: int)   // the model `name` ran; `scale` is the requested scale

  /** A strategy `upscale` can report: a model strategy names a registry key. */
  predicate Valid(s: Strategy) {
    s.ByModel? ==> IsLowerWord(s.name)
  }

  const ModelPrefix := "OpenCV "

  /** The label each branch of `upscale` returns; only a model run's label starts with "OpenCV ". */
  function Label(s: Strategy): (r: string)
    ensures s.ByModel? <==> HasModelPrefix(r)
  {
    FallbackLabelsLackModelPrefix();
    match s
    case NoRuntime => "Bicubic (no dnn_superres)"
    case NoModel => "Bicubic (no model)"
    case SrFailed => "Bicubic (sr failed)"
    case ByModel(name, scale) => ModelPrefix + Upper(name) + " x" + IntToDecimal(scale)
  }

  predicate HasModelPrefix(line: string) {
    |line| >= |ModelPrefix| && line[..|ModelPrefix|] == ModelPrefix
  }

  /** A string starting with `B` is not a model label. */
  lemma StartsWithBLacksModelPrefix(line: string)
    requires |line| > 0 && line[0] == 'B'
    ensures !HasModelPrefix(line)
  {
    if |line| >= |ModelPrefix| {
      assert line[..|ModelPrefix|][0] == 'B';
    }
  }

  /** The three fallback labels all start with `B`, so none carries the model prefix. */
  lemma FallbackLabelsLackModelPrefix()
    ensures !HasModelPrefix("Bicubic (no dnn_superres)")
    ensures !HasModelPrefix("Bicubic (no model)")
    ensures !HasModelPrefix("Bicubic (sr failed)")
  {
    StartsWithBLacksModelPrefix("Bicubic (no dnn_superres)");
    StartsWithBLacksModelPrefix("Bicubic (no model)");
    StartsWithBLacksModelPrefix("Bicubic (sr failed)");
  }

  /** Recovers the strategy from a label. */
  function ParseLabel(line: string): Option<Strategy> {
    if HasModelPrefix(line) then
      match ParseTagged(line[|ModelPrefix|..], ' ', 'x')
      case Some((name, scale)) => Some(ByModel(name, scale))
      case None => None
    else if line == Label(NoRuntime) then Some(NoRuntime)
    else if line == Label(NoModel) then Some(NoModel)
    else if line == Label(SrFailed) then Some(SrFailed)
    else None
  }

  /** Every label `upscale` can produce decodes back to the strategy that produced it. */
  lemma LabelRoundTrip(s: Strategy)
    requires Valid(s)
    ensures ParseLabel(Label(s)) == Some(s)
  {
    match s
    case ByModel(name, scale) => ModelLabelRoundTrip(name, scale);
    case _ => FallbackLabelRoundTrip(s);
  }

  /** The fallback labels lack the model prefix, so the model-label parser never claims them. */
  lemma FallbackLabelRoundTrip(s: Strategy)
    requires !s.ByModel?
    ensures ParseLabel(Label(s)) == Some(s)
  {
    FallbackLabelsLackModelPrefix();
  }

  /** `OpenCV NAME x{scale}` reads back as the registry key and the scale. */
  lemma ModelLabelRoundTrip(name: string, scale: int)
    requires IsLowerWord(name)
    ensures ParseLabel(Label(ByModel(name, scale))) == Some(ByModel(name, scale))
  {
    var line := Label(ByModel(name, scale));
    var tail := Upper(name) + [' ', 'x'] + IntToDecimal(scale);
    assert line == ModelPrefix + tail;
    assert line[..|ModelPrefix|] == ModelPrefix;
    assert line[|ModelPrefix|..] == tail;
    ParseTaggedRoundTrip(name, ' ', 'x', scale);
  }

  /** Distinct strategies never share a label. */
  lemma LabelInjective(s1: Strategy, s2: Strategy)
    requires Valid(s1) && Valid(s2)
    requires Label(s1) == Label(s2)
    ensures s1 == s2
  {
    LabelRoundTrip(s1);
    LabelRoundTrip(s2);
  }
}

=== FILE: lookup.dfy ===
/**
 `OpenCVSuperResolver._find_model_path`: a first pass over the priority order for
 a family that serves the target scale natively and whose weights for that scale
 exist, then a second pass for any family whose default-scale weights exist.
 The filesystem is the set of paths `os.path.isfile` accepts.
 */
module Lookup {
  import opened Wrappers
  import opened ModelRegistry
  import opened WeightFiles

  /** The `(name, path, scale)` triple `_find_model_path` returns. */
  datatype Found = Found(name: string, path: string, scale: int)

  /** First-pass test for one family: it allows `target` and its `NAME_x{target}.pb` exists. */
  predicate ExactHit(reg: Registry, dir: string, files: set<string>, target: int, name: string)
    requires name in reg.models
  {
    target in reg.models[name].allowedScales && CandidatePath(dir, name, target) in files
  }

  /** Second-pass test for one family: its `NAME_x{default}.pb` exists. */
  predicate DefaultHit(reg: Registry, dir: string, files: set<string>, name: string)
    requires name in reg.models
  {
    CandidatePath(dir, name, reg.models[name].defaultScale) in files
  }

  /** The triple the second pass returns for a family. */
  function DefaultFound(reg: Registry, dir: string, name: string): Found
    requires name in reg.models
  {
    var d := reg.models[name].defaultScale;
    Found(name, CandidatePath(dir, name, d), d)
  }

  /**
   The first loop, from position `from` of the order: it returns the first
   family there that is an exact hit, at the target scale.
   */
  function ExactPass(reg: Registry, dir: string, files: set<string>, target: int, from: nat): (r: Option<Found>)
    requires reg.Covers() && from <= |reg.order|
    ensures r.None? <==> forall j :: from <= j < |reg.order| ==> !ExactHit(reg, dir, files, target, reg.order[j])
    ensures r.Some? ==> (exists k :: from <= k < |reg.order|
                           && ExactHit(reg, dir, files, target, reg.order[k])
                           && (forall j :: from <= j < k ==> !ExactHit(reg, dir, files, target, reg.order[j]))
                           && r.value == Found(reg.order[k], CandidatePath(dir, reg.order[k], target), target))
    decreases |reg.order| - from
  {
    if from == |reg.order| then None
    else
      var name := reg.order[from];
      if ExactHit(reg, dir, files, target, name) then
        assert ExactHit(reg, dir, files, target, reg.order[from]);
        Some(Found(reg.order[from], CandidatePath(dir, reg.order[from], target), target))
      else
        var r := ExactPass(reg, dir, files, target, from + 1);
        if r.Some? then
          var k :| from + 1 <= k < |reg.order|
            && ExactHit(reg, dir, files, target, reg.order[k])
            && (forall j :: from + 1 <= j < k ==> !ExactHit(reg, dir, files, target, reg.order[j]))
            && r.value == Found(reg.order[k], CandidatePath(dir, reg.order[k], target), target);
          assert forall j :: from <= j < k ==> !ExactHit(reg, dir, files, target, reg.order[j]);
          r
        else r
  }

  /**
   The second loop, from position `from` of the order: it returns the first
   family there whose default-scale weights exist, at that default scale.
   */
  function DefaultPass(reg: Registry, dir: string, files: set<string>, from: nat): (r: Option<Found>)
    requires reg.Covers() && from <= |reg.order|
    ensures r.None? <==> forall j :: from <= j < |reg.order| ==> !DefaultHit(reg, dir, files, reg.order[j])
    ensures r.Some? ==> (exists k :: from <= k < |reg.order|
                           && DefaultHit(reg, dir, files, reg.order[k])
                           && (forall j :: from <= j < k ==> !DefaultHit(reg, dir, files, reg.order[j]))
                           && r.value == DefaultFound(reg, dir, reg.order[k]))
    decreases |reg.order| - from
  {
    if from == |reg.order| then None
    else
      var name := reg.order[from];
      if DefaultHit(reg, dir, files, name) then
        assert DefaultHit(reg, dir, files, reg.order[from]);
        Some(DefaultFound(reg, dir, reg.order[from]))
      else
        var r := DefaultPass(reg, dir, files, from + 1);
        if r.Some? then
          var k :| from + 1 <= k < |reg.order|
            && DefaultHit(reg, dir, files, reg.order[k])
            && (forall j :: from + 1 <= j < k ==> !DefaultHit(reg, dir, files, reg.order[j]))
            && r.value == DefaultFound(reg, dir, reg.order[k]);
          assert forall j :: from <= j < k ==> !DefaultHit(reg, dir, files, reg.order[j]);
          r
        else r
  }

  /**
   `_find_model_path(target_scale)`. It finds nothing exactly when no candidate
   file of either pass exists; whatever it returns is an existing file at the
   path the naming convention gives for the returned family and scale, and that
   scale is the target (served natively) or the family's default.
   */
  function FindModelPath(reg: Registry, dir: string, files: set<string>, target: int): (r: Option<Found>)
    requires reg.Covers()
    ensures r.None? <==> forall j :: 0 <= j < |reg.order| ==>
      !ExactHit(reg, dir, files, target, reg.order[j]) && !DefaultHit(reg, dir, files, reg.order[j])
    ensures r.Some? ==> r.value.name in reg.order && r.value.name in reg.models
    ensures r.Some? ==> r.value.path == CandidatePath(dir, r.value.name, r.value.scale) && r.value.path in files
    ensures r.Some? ==> ((r.value.scale == target && target in reg.models[r.value.name].allowedScales)
                         || r.value.scale == reg.models[r.value.name].defaultScale)
  {
    match ExactPass(reg, dir, files, target, 0)
    case Some(f) => Some(f)
    case None => DefaultPass(reg, dir, files, 0)
  }

  /**
   First pass: when the family at position `k` is the first exact hit, the
   lookup returns it at the target scale; no family earlier in the order that
   allows the target has its file.
   */
  lemma ExactHitWins(reg: Registry, dir: string, files: set<string>, target: int, k: nat)
    requires reg.Covers() && k < |reg.order|
    requires ExactHit(reg, dir, files, target, reg.order[k])
    requires forall j :: 0 <= j < k ==> !ExactHit(reg, dir, files, target, reg.order[j])
    ensures FindModelPath(reg, dir, files, target)
         == Some(Found(reg.order[k], CandidatePath(dir, reg.order[k], target), target))
  {
    var r := ExactPass(reg, dir, files, target, 0);
    assert r.Some?;
    var k' :| 0 <= k' < |reg.order|
      && ExactHit(reg, dir, files, target, reg.order[k'])
      && (forall j :: 0 <= j < k' ==> !ExactHit(reg, dir, files, target, reg.order[j]))
      && r.value == Found(reg.order[k'], CandidatePath(dir, reg.order[k'], target), target);
    assert k' == k;
  }

  /**
   Second pass: it is consulted only when no exact hit exists, and then the first
   family at position `k` whose default-scale file exists wins, at its default scale.
   */
  lemma DefaultHitWins(reg: Registry, dir: string, files: set<string>, target: int, k: nat)
    requires reg.Covers() && k < |reg.order|
    requires forall j :: 0 <= j < |reg.order| ==> !ExactHit(reg, dir, files, target, reg.order[j])
    requires DefaultHit(reg, dir, files, reg.order[k])
    requires forall j :: 0 <= j < k ==> !DefaultHit(reg, dir, files, reg.order[j])
    ensures FindModelPath(reg, dir, files, target) == Some(DefaultFound(reg, dir, reg.order[k]))
  {
    var r := DefaultPass(reg, dir, files, 0);
    assert r.Some?;
    var k' :| 0 <= k' < |reg.order|
      && DefaultHit(reg, dir, files, reg.order[k'])
      && (forall j :: 0 <= j < k' ==> !DefaultHit(reg, dir, files, reg.order[j]))
      && r.value == DefaultFound(reg, dir, reg.order[k']);
    assert k' == k;
  }

  /**
   In a well-formed registry the lookup returns the requested scale exactly when
   some family has an exact hit; a second-pass result always differs from the
   target, because a default equal to the target would have been an exact hit.
   So the resolver rescales precisely the results of the second pass.
   */
  lemma ScaleMatchesIffExactHit(reg: Registry, dir: string, files: set<string>, target: int)
    requires reg.WellFormed()
    requires FindModelPath(reg, dir, files, target).Some?
    ensures FindModelPath(reg, dir, files, target).value.scale == target
        <==> exists j :: 0 <= j < |reg.order| && ExactHit(reg, dir, files, target, reg.order[j])
  {
    var f := FindModelPath(reg, dir, files, target).value;
    var e := ExactPass(reg, dir, files, target, 0);
    if e.None? {
      var d := DefaultPass(reg, dir, files, 0);
      var k :| 0 <= k < |reg.order|
        && DefaultHit(reg, dir, files, reg.order[k])
        && (forall j :: 0 <= j < k ==> !DefaultHit(reg, dir, files, reg.order[j]))
        && d.value == DefaultFound(reg, dir, reg.order[k]);
      var entry := reg.models[reg.order[k]];
      assert entry.defaultScale in entry.allowedScales;
      assert !ExactHit(reg, dir, files, target, reg.order[k]);
    }
  }

  /**
   A directory holding only family `n`'s weights at a scale it serves natively:
   the lookup picks `n` at that scale, whatever its place in the order.
   */
  lemma SoleExactFileFound(reg: Registry, dir: string, n: string, target: int)
    requires reg.WellFormed() && n in reg.models && target in reg.models[n].allowedScales
    ensures FindModelPath(reg, dir, {CandidatePath(dir, n, target)}, target)
         == Some(Found(n, CandidatePath(dir, n, target), target))
  {
    var files := {CandidatePath(dir, n, target)};
    var k :| 0 <= k < |reg.order| && reg.order[k] == n;
    forall j | 0 <= j < k
      ensures !ExactHit(reg, dir, files, target, reg.order[j])
    {
      CandidatePathsDiffer(dir, reg.order[j], target, n, target);
    }
    ExactHitWins(reg, dir, files, target, k);
  }

  /**
   A directory holding only family `n`'s default-scale weights, asked for another
   scale: the first pass finds nothing and the second pass picks `n` at its default.
   */
  lemma SoleDefaultFileFound(reg: Registry, dir: string, n: string, target: int)
    requires reg.WellFormed() && n in reg.models && target != reg.models[n].defaultScale
    ensures FindModelPath(reg, dir, {CandidatePath(dir, n, reg.models[n].defaultScale)}, target)
         == Some(DefaultFound(reg, dir, n))
  {
    var d := reg.models[n].defaultScale;
    var files := {CandidatePath(dir, n, d)};
    var k :| 0 <= k < |reg.order| && reg.order[k] == n;
    forall j | 0 <= j < |reg.order|
      ensures !ExactHit(reg, dir, files, target, reg.order[j])
    {
      CandidatePathsDiffer(dir, reg.order[j], target, n, d);
    }
    forall j | 0 <= j < k
      ensures !DefaultHit(reg, dir, files, reg.order[j])
    {
      CandidatePathsDiffer(dir, reg.order[j], reg.models[reg.order[j]].defaultScale, n, d);
    }
    DefaultHitWins(reg, dir, files, target, k);
  }
}

=== FILE: registry.dfy ===
/**
 The static model table of the OpenCV super-resolver: for each model family its
 OpenCV name, the scale its weights were trained for, and the scales it serves
 natively, plus the fixed priority in which families are searched.
 */
module ModelRegistry {
  import opened Text

  /** One `SUPPORTED_MODELS` entry: `(opencv_model_name, default_scale, allowed_scales)`. */
  datatype ModelSpec = ModelSpec(opencvName: string, defaultScale: int, allowedScales: set<int>)

  /** A model table together with its search order. */
  datatype Registry = Registry(models: map<string, ModelSpec>, order: seq<string>)
  {
    /** Every searched name has a table entry; otherwise the lookup's `SUPPORTED_MODELS[name]` raises. */
    predicate Covers() {
      forall i :: 0 <= i < |order| ==> order[i] in models
    }

    predicate NoDuplicates() {
      forall i, j :: 0 <= i < j < |order| ==> order[i] != order[j]
    }

    /**
     The table is sound: the order lists exactly the table's keys, once each;
     every key is a lower-case word (so its upper-cased form names one family);
     every default scale is positive and one of the family's own allowed scales.
     */
    predicate WellFormed() {
      && Covers()
      && NoDuplicates()
      && (forall n :: n in models ==> n in order)
      && (forall n :: n in models ==> IsLowerWord(n))
      && (forall n :: n in models ==> 0 < models[n].defaultScale && models[n].defaultScale in models[n].allowedScales)
    }
  }

  const SupportedModels: map<string, ModelSpec> := map[
    "espcn" := ModelSpec("espcn", 4, {2, 3, 4}),
    "edsr" := ModelSpec("edsr", 4, {2, 3, 4}),
    "fsrcnn" := ModelSpec("fsrcnn", 4, {2, 3, 4}),
    "lapsrn" := ModelSpec("lapsrn", 8, {8})
  ]

  const DefaultModelOrder: seq<string> := ["edsr", "espcn", "fsrcnn", "lapsrn"]

  /** The registry the resolver searches. */
  const Supported: Registry := Registry(SupportedModels, DefaultModelOrder)

  lemma SupportedWellFormed()
    ensures Supported.WellFormed()
  {
    assert Supported.Covers();
    assert Supported.NoDuplicates();
    assert SupportedModels.Keys == {"espcn", "edsr", "fsrcnn", "lapsrn"};
    forall n | n in SupportedModels
      ensures n in DefaultModelOrder && IsLowerWord(n)
      ensures 0 < SupportedModels[n].defaultScale && SupportedModels[n].defaultScale in SupportedModels[n].allowedScales
    {
      if n == "edsr" {
        assert DefaultModelOrder[0] == n;
      } else if n == "espcn" {
        assert DefaultModelOrder[1] == n;
      } else if n == "fsrcnn" {
        assert DefaultModelOrder[2] == n;
      } else {
        assert DefaultModelOrder[3] == n;
      }
    }
  }

  /** Every default scale in the shipped table is a power of two (4 or 8). */
  lemma SupportedDefaultsArePowersOfTwo(n: string)
    requires n in SupportedModels
    ensures SupportedModels[n].defaultScale in {4, 8}
  {
  }

  /** Every scale the shipped table allows is positive, so no scale divides by zero. */
  lemma SupportedScalesPositive(n: string, scale: int)
    requires n in SupportedModels && scale in SupportedModels[n].allowedScales
    ensures scale > 0
  {
    assert n in {"espcn", "edsr", "fsrcnn", "lapsrn"};
  }
}

=== FILE: resolver.dfy ===
/**
 `OpenCVSuperResolver.upscale`: the four-branch decision tree (runtime missing,
 no model found, model failed, model applied) over the shipped registry, with
 images reduced to their dimensions. Every branch answers with an image of the
 requested size and a label naming the branch; no branch raises.
 */
module Resolver {
  import opened Wrappers
  import opened Text
  import opened ModelRegistry
  import opened WeightFiles
  import opened Lookup
  import opened Labels

  /** An image reduced to its width and height (`shape[1]`, `shape[0]`). */
  datatype Dims = Dims(w: nat, h: nat)

  /** What `upscale` returns: the image and the method label. */
  datatype Outcome = Outcome(image: Dims, methodLabel: string)

  /** `_bicubic`: `cv2.resize` to `(w*scale, h*scale)`. */
  function Bicubic(img: Dims, scale: nat): Dims {
    Dims(img.w * scale, img.h * scale)
  }

  /** `sr.upsample` with a model set to `modelScale`; assumed to multiply both sides by it. */
  function Upsample(img: Dims, modelScale: nat): Dims {
    Dims(img.w * modelScale, img.h * modelScale)
  }

  /**
   `int(n * (scale / model_scale))`, in exact arithmetic: the truncation of the
   true quotient. The resize runs only after the default-scale pass
   (`ReconcilesOnlyAfterDefaultPass`), so `model_scale` is then a default scale,
   4 or 8 (`ResizedModelScaleIsPowerOfTwo`). The float `scale / model_scale` is
   therefore exact, and the float computation agrees as long as `n` and the
   result stay below 2^53.
   */
  function ScaleSide(n: nat, scale: nat, modelScale: nat): (r: nat)
    requires modelScale > 0
    ensures r * modelScale <= n * scale < r * modelScale + modelScale
  {
    n * scale / modelScale
  }

  /** The reconciliation resize to `(new_w, new_h)`. */
  function Reconcile(result: Dims, scale: nat, modelScale: nat): Dims
    requires modelScale > 0
  {
    Dims(ScaleSide(result.w, scale, modelScale), ScaleSide(result.h, scale, modelScale))
  }

  lemma MulDivCancel(a: nat, m: nat)
    requires m > 0
    ensures a * m / m == a
  {
    var q := a * m / m;
    var r := a * m % m;
    assert a * m == q * m + r && 0 <= r < m;
    assert (a - q) * m == r;
    assert a - q >= 1 ==> (a - q) * m >= m;
  }

  /**
   Reconciling the model's output, upsampled at `modelScale`, lands exactly on the
   size pure interpolation gives at the requested scale: the floor in `int(...)`
   never loses a pixel.
   */
  lemma ReconcileRestoresScale(img: Dims, scale: nat, modelScale: nat)
    requires modelScale > 0
    ensures Reconcile(Upsample(img, modelScale), scale, modelScale) == Bicubic(img, scale)
  {
    assert img.w * modelScale * scale == (img.w * scale) * modelScale;
    assert img.h * modelScale * scale == (img.h * scale) * modelScale;
    MulDivCancel(img.w * scale, modelScale);
    MulDivCancel(img.h * scale, modelScale);
  }

  /** The model branch: upsample at the model's scale, then resize when that is not the requested scale. */
  function ApplyModel(img: Dims, modelScale: nat, scale: nat): (r: Dims)
    requires modelScale > 0
    ensures r == Dims(img.w * scale, img.h * scale)
  {
    var result := Upsample(img, modelScale);
    if modelScale != scale then
      ReconcileRestoresScale(img, scale, modelScale);
      Reconcile(result, scale, modelScale)
    else result
  }

  /** A lookup result over the shipped registry names a registry key at a positive scale. */
  lemma SupportedFoundIsValid(found: Found, dir: string, files: set<string>, scale: int)
    requires FindModelPath(Supported, dir, files, scale) == Some(found)
    ensures IsLowerWord(found.name) && found.scale > 0
  {
    SupportedWellFormed();
    if found.scale != SupportedModels[found.name].defaultScale {
      SupportedScalesPositive(found.name, found.scale);
    }
  }

  /** A success label is never one of the three fallback labels. */
  lemma ModelLabelIsNoFallback(name: string, scale: int)
    requires IsLowerWord(name)
    ensures Label(ByModel(name, scale)) !in {Label(NoRuntime), Label(NoModel), Label(SrFailed)}
    ensures ParseLabel(Label(ByModel(name, scale))) == Some(ByModel(name, scale))
  {
    LabelRoundTrip(ByModel(name, scale));
    LabelRoundTrip(NoRuntime);
    LabelRoundTrip(NoModel);
    LabelRoundTrip(SrFailed);
  }

  /**
   `upscale(img, scale)`. `runtimeAvailable` says whether `from cv2 import
   dnn_superres` succeeds; `srOk` whether creating, loading, configuring and
   running the model, and the reconciliation resize, all complete without
   raising. Given the size assumed for `Upsample`, the image always has the
   requested size; each fallback label is produced exactly in its own
   situation, and every label decodes to a strategy.
   */
  function Upscale(dir: string, files: set<string>, runtimeAvailable: bool, srOk: bool, img: Dims, scale: int): (r: Outcome)
    requires scale > 0
    requires img.w > 0 && img.h > 0
    ensures r.image == Dims(img.w * scale, img.h * scale)
    ensures r.methodLabel == Label(NoRuntime) <==> !runtimeAvailable
    ensures r.methodLabel == Label(NoModel) <==> runtimeAvailable && FindModelPath(Supported, dir, files, scale).None?
    ensures r.methodLabel == Label(SrFailed) <==> runtimeAvailable && FindModelPath(Supported, dir, files, scale).Some? && !srOk
    ensures ParseLabel(r.methodLabel).Some?
    ensures ParseLabel(r.methodLabel).value.ByModel? ==>
              ParseLabel(r.methodLabel).value.scale == scale && ParseLabel(r.methodLabel).value.name in SupportedModels
  {
    LabelRoundTrip(NoRuntime);
    LabelRoundTrip(NoModel);
    LabelRoundTrip(SrFailed);
    if !runtimeAvailable then
      Outcome(Bicubic(img, scale), Label(NoRuntime))
    else
      match FindModelPath(Supported, dir, files, scale)
      case None =>
        Outcome(Bicubic(img, scale), Label(NoModel))
      case Some(found) =>
        if !srOk then
          Outcome(Bicubic(img, scale), Label(SrFailed))
        else
          SupportedFoundIsValid(found, dir, files, scale);
          ModelLabelIsNoFallback(found.name, scale);
          Outcome(ApplyModel(img, found.scale, scale), Label(ByModel(found.name, scale)))
  }

  /** Without the superres runtime the files on disk play no part: the result is pure interpolation. */
  lemma NoRuntimeIgnoresFiles(dir: string, files: set<string>, srOk: bool, img: Dims, scale: int)
    requires scale > 0 && img.w > 0 && img.h > 0
    ensures Upscale(dir, files, false, srOk, img, scale) == Outcome(Bicubic(img, scale), Label(NoRuntime))
  {
  }

  /**
   A missing runtime gives the same image as an empty models directory; only the
   label tells the two apart.
   */
  lemma NoRuntimeMatchesEmptyDirectory(dir: string, files: set<string>, ok1: bool, ok2: bool, img: Dims, scale: int)
    requires scale > 0 && img.w > 0 && img.h > 0
    ensures Upscale(dir, {}, true, ok2, img, scale) == Outcome(Bicubic(img, scale), Label(NoModel))
    ensures Upscale(dir, files, false, ok1, img, scale).image == Upscale(dir, {}, true, ok2, img, scale).image
    ensures Upscale(dir, files, false, ok1, img, scale).methodLabel != Upscale(dir, {}, true, ok2, img, scale).methodLabel
  {
  }

  /**
   When a model ran, the label names that family and the REQUESTED scale, even
   when the family ran at its default scale and the result was resized.
   */
  lemma SuccessLabelNamesRequestedScale(dir: string, files: set<string>, img: Dims, scale: int)
    requires scale > 0 && img.w > 0 && img.h > 0
    requires FindModelPath(Supported, dir, files, scale).Some?
    ensures ParseLabel(Upscale(dir, files, true, true, img, scale).methodLabel)
         == Some(ByModel(FindModelPath(Supported, dir, files, scale).value.name, scale))
  {
    var found := FindModelPath(Supported, dir, files, scale).value;
    SupportedFoundIsValid(found, dir, files, scale);
    ModelLabelIsNoFallback(found.name, scale);
  }

  /**
   The reconciliation resize runs exactly when no family with an exact-scale
   file exists, i.e. exactly when the model came from the default-scale pass.
   */
  lemma ReconcilesOnlyAfterDefaultPass(dir: string, files: set<string>, scale: int)
    requires scale > 0
    requires FindModelPath(Supported, dir, files, scale).Some?
    ensures FindModelPath(Supported, dir, files, scale).value.scale != scale
        <==> forall j :: 0 <= j < |DefaultModelOrder| ==> !ExactHit(Supported, dir, files, scale, DefaultModelOrder[j])
  {
    SupportedWellFormed();
    ScaleMatchesIffExactHit(Supported, dir, files, scale);
  }

  /**
   When the model scale differs from the requested one, so that the resize runs,
   the model scale is a default scale of the shipped table: 4 or 8.
   */
  lemma ResizedModelScaleIsPowerOfTwo(dir: string, files: set<string>, scale: int)
    requires FindModelPath(Supported, dir, files, scale).Some?
    requires FindModelPath(Supported, dir, files, scale).value.scale != scale
    ensures FindModelPath(Supported, dir, files, scale).value.scale in {4, 8}
  {
    SupportedDefaultsArePowersOfTwo(FindModelPath(Supported, dir, files, scale).value.name);
  }

  /**
   A directory holding only the weights of family `n` at a scale it serves
   natively: that family is chosen at that scale, with no resize, and the
   output is `scale` times the input.
   */
  lemma SoleExactFileSelected(dir: string, n: string, scale: int, img: Dims)
    requires n in SupportedModels && scale in SupportedModels[n].allowedScales
    requires scale > 0 && img.w > 0 && img.h > 0
    ensures FindModelPath(Supported, dir, {CandidatePath(dir, n, scale)}, scale)
         == Some(Found(n, CandidatePath(dir, n, scale), scale))
    ensures Upscale(dir, {CandidatePath(dir, n, scale)}, true, true, img, scale)
         == Outcome(Dims(img.w * scale, img.h * scale), Label(ByModel(n, scale)))
  {
    SupportedWellFormed();
    SoleExactFileFound(Supported, dir, n, scale);
  }

  /**
   A directory holding only the default-scale weights of family `n`, asked for
   another scale: that family runs at its default scale and the reconciliation
   resize brings the output to exactly `scale` times the input.
   */
  lemma SoleDefaultFileReconciled(dir: string, n: string, scale: int, img: Dims)
    requires n in SupportedModels && scale != SupportedModels[n].defaultScale
    requires scale > 0 && img.w > 0 && img.h > 0
    ensures FindModelPath(Supported, dir, {CandidatePath(dir, n, SupportedModels[n].defaultScale)}, scale)
         == Some(DefaultFound(Supported, dir, n))
    ensures Upscale(dir, {CandidatePath(dir, n, SupportedModels[n].defaultScale)}, true, true, img, scale)
         == Outcome(Dims(img.w * scale, img.h * scale), Label(ByModel(n, scale)))
  {
    SupportedWellFormed();
    SoleDefaultFileFound(Supported, dir, n, scale);
  }

  /**
   The success label does not say whether a resize ran. At scale 2, a directory
   holding only `EDSR_x2.pb` is served by the first pass at x2 with no resize,
   and one holding only `EDSR_x4.pb` by the second pass at x4 followed by a
   resize by 1/2; both give the same image and the same label "OpenCV EDSR x2".
   */
  lemma ExactAndReconciledShareLabel(dir: string, img: Dims)
    requires img.w > 0 && img.h > 0
    ensures FindModelPath(Supported, dir, {CandidatePath(dir, "edsr", 2)}, 2).value.scale == 2
    ensures FindModelPath(Supported, dir, {CandidatePath(dir, "edsr", 4)}, 2).value.scale == 4
    ensures Upscale(dir, {CandidatePath(dir, "edsr", 2)}, true, true, img, 2)
         == Upscale(dir, {CandidatePath(dir, "edsr", 4)}, true, true, img, 2)
  {
    SoleExactFileSelected(dir, "edsr", 2, img);
    SoleDefaultFileReconciled(dir, "edsr", 2, img);
  }
}

=== FILE: scenarios.dfy ===
/**
 Worked cases of `upscale` on a 100x100 image with the models directory "models".
 */
module Scenarios {
  import opened Wrappers
  import opened Text
  import opened ModelRegistry
  import opened WeightFiles
  import opened Lookup
  import opened Labels
  import opened Resolver

  lemma EdsrWeightPath()
    ensures CandidatePath("models", "edsr", 4) == "models/EDSR_x4.pb"
  {
    assert Upper("edsr") == "EDSR";
    assert NatToDecimal(4) == "4";
  }

  lemma EdsrLabel(scale: nat, digit: string)
    requires scale < 10 && digit == [DigitChar(scale)]
    ensures Label(ByModel("edsr", scale)) == "OpenCV EDSR x" + digit
  {
    assert Upper("edsr") == "EDSR";
  }

  /** Only `EDSR_x4.pb` present, scale 4: EDSR serves x4 natively, giving 400x400. */
  lemma ExactScaleScenario()
    ensures Upscale("models", {"models/EDSR_x4.pb"}, true, true, Dims(100, 100), 4)
         == Outcome(Dims(400, 400), "OpenCV EDSR x4")
  {
    var img := Dims(100, 100);
    EdsrWeightPath();
    var files := {CandidatePath("models", "edsr", 4)};
    assert files == {"models/EDSR_x4.pb"};
    SoleExactFileSelected("models", "edsr", 4, img);
    assert Upscale("models", files, true, true, img, 4) == Outcome(Dims(400, 400), Label(ByModel("edsr", 4)));
    EdsrLabel(4, "4");
  }

  /**
   Only `EDSR_x4.pb` present, scale 6: no family serves x6, EDSR runs at x4
   (400x400) and is resized by 6/4 to 600x600; the label says x6.
   */
  lemma DefaultScaleScenario()
    ensures FindModelPath(Supported, "models", {"models/EDSR_x4.pb"}, 6)
         == Some(Found("edsr", "models/EDSR_x4.pb", 4))
    ensures Upscale("models", {"models/EDSR_x4.pb"}, true, true, Dims(100, 100), 6)
         == Outcome(Dims(600, 600), "OpenCV EDSR x6")
  {
    var img := Dims(100, 100);
    EdsrWeightPath();
    var files := {CandidatePath("models", "edsr", 4)};
    assert files == {"models/EDSR_x4.pb"};
    SoleDefaultFileReconciled("models", "edsr", 6, img);
    assert Upscale("models", files, true, true, img, 6) == Outcome(Dims(600, 600), Label(ByModel("edsr", 6)));
    EdsrLabel(6, "6");
  }

  /** Empty directory, scale 3: bicubic to 300x300, labelled as having no model. */
  lemma EmptyDirectoryScenario()
    ensures Upscale("models", {}, true, true, Dims(100, 100), 3)
         == Outcome(Dims(300, 300), "Bicubic (no model)")
  {
  }

  /** A weight file that fails to load still yields the interpolated 400x400 image. */
  lemma FailedModelScenario()
    ensures Upscale("models", {"models/EDSR_x4.pb"}, true, false, Dims(100, 100), 4)
         == Outcome(Dims(400, 400), "Bicubic (sr failed)")
  {
    EdsrWeightPath();
    SoleExactFileSelected("models", "edsr", 4, Dims(100, 100));
  }
}

=== FILE: text.dfy ===
/**
 The two pieces of Python string handling the resolver relies on: `str.upper()`
 on model names (which are plain ASCII) and `str()` on integer scales, together
 with the parsers that undo them.
 */
module Text {
  import opened Wrappers

  predicate IsLower(c: char) { 'a' <= c <= 'z' }
  predicate IsUpper(c: char) { 'A' <= c <= 'Z' }
  predicate IsDigit(c: char) { '0' <= c <= '9' }

  /** A non-empty run of lower-case ASCII letters: the shape of every registry key. */
  predicate IsLowerWord(s: string) {
    |s| > 0 && forall i :: 0 <= i < |s| ==> IsLower(s[i])
  }

  /** A non-empty run of upper-case ASCII letters. */
  predicate IsUpperWord(s: string) {
    |s| > 0 && forall i :: 0 <= i < |s| ==> IsUpper(s[i])
  }

  predicate AllDigits(s: string) {
    forall i :: 0 <= i < |s| ==> IsDigit(s[i])
  }

  function UpperChar(c: char): char {
    if IsLower(c) then (c as int - 32) as char else c
  }

  function LowerChar(c: char): char {
    if IsUpper(c) then (c as int + 32) as char else c
  }

  /** `s.upper()` on the ASCII range. */
  function Upper(s: string): string {
    seq(|s|, i requires 0 <= i < |s| => UpperChar(s[i]))
  }

  function Lower(s: string): string {
    seq(|s|, i requires 0 <= i < |s| => LowerChar(s[i]))
  }

  /** Upper-casing a registry key gives an upper-case word of the same length. */
  lemma UpperOfLowerWord(s: string)
    requires IsLowerWord(s)
    ensures IsUpperWord(Upper(s)) && |Upper(s)| == |s|
  {
    forall i | 0 <= i < |s|
      ensures IsUpper(Upper(s)[i])
    {
      assert IsLower(s[i]);
    }
  }

  /** Lower-casing undoes upper-casing on registry keys, so `upper()` loses nothing there. */
  lemma LowerUpperInverse(s: string)
    requires IsLowerWord(s)
    ensures Lower(Upper(s)) == s
  {
    forall i | 0 <= i < |s|
      ensures Lower(Upper(s))[i] == s[i]
    {
      assert IsLower(s[i]);
    }
  }

  function DigitChar(d: nat): char
    requires d < 10
  {
    ('0' as int + d) as char
  }

  function DigitValue(c: char): nat
    requires IsDigit(c)
  {
    c as int - '0' as int
  }

  /**
   `str(n)` for a non-negative integer: decimal digits, most significant first,
   never empty and with a leading zero only for zero itself.
   */
  function NatToDecimal(n: nat): (r: string)
    ensures |r| > 0 && AllDigits(r)
    ensures r[0] == '0' <==> n == 0
    decreases n
  {
    if n < 10 then [DigitChar(n)]
    else NatToDecimal(n / 10) + [DigitChar(n % 10)]
  }

  /** The value of a string of decimal digits (the empty string reads as 0). */
  function DecimalToNat(s: string): nat
    requires AllDigits(s)
  {
    if s == [] then 0 else DecimalToNat(s[..|s| - 1]) * 10 + DigitValue(s[|s| - 1])
  }

  lemma {:induction false} DecimalRoundTrip(n: nat)
    ensures DecimalToNat(NatToDecimal(n)) == n
    decreases n
  {
    var s := NatToDecimal(n);
    if n < 10 {
      assert s[..|s| - 1] == [];
    } else {
      assert s[..|s| - 1] == NatToDecimal(n / 10);
      DecimalRoundTrip(n / 10);
    }
  }

  /** `str(i)` for any integer: a minus sign before the digits of a negative value. */
  function IntToDecimal(i: int): (r: string)
    ensures |r| > 0 && (r[0] == '-' <==> i < 0)
    ensures i >= 0 ==> AllDigits(r)
    ensures i < 0 ==> |r| > 1 && AllDigits(r[1..])
  {
    if i < 0 then "-" + NatToDecimal(-i) else NatToDecimal(i)
  }

  /** Reads back an optional minus sign followed by at least one digit. */
  function ParseInt(s: string): Option<int> {
    if |s| > 1 && s[0] == '-' && AllDigits(s[1..]) then Some(-(DecimalToNat(s[1..]) as int))
    else if |s| > 0 && AllDigits(s) then Some(DecimalToNat(s))
    else None
  }

  /** `str()` on integers is undone by ParseInt, so distinct scales print differently. */
  lemma IntRoundTrip(i: int)
    ensures ParseInt(IntToDecimal(i)) == Some(i)
  {
    if i < 0 {
      NegativeRoundTrip(-i);
      assert i == -((-i) as int);
    } else {
      DecimalRoundTrip(i);
      assert NatToDecimal(i)[0] != '-';
    }
  }

  /** A minus sign before the digits of a positive `n` reads back as `-n`. */
  lemma NegativeRoundTrip(n: nat)
    requires n > 0
    ensures ParseInt("-" + NatToDecimal(n)) == Some(-(n as int))
  {
    var d := NatToDecimal(n);
    var s := "-" + d;
    assert s[1..] == d;
    DecimalRoundTrip(n);
  }

  /**
   Position of the first `c` in `s`, or `|s|` when there is none.
   */
  function IndexOf(s: string, c: char): (k: nat)
    ensures k <= |s|
    ensures k < |s| ==> s[k] == c
    ensures forall j :: 0 <= j < k ==> s[j] != c
  {
    if s == [] then 0
    else if s[0] == c then 0
    else 1 + IndexOf(s[1..], c)
  }

  lemma IndexOfAfterPrefix(a: string, b: string, c: char)
    requires forall j :: 0 <= j < |a| ==> a[j] != c
    requires |b| > 0 && b[0] == c
    ensures IndexOf(a + b, c) == |a|
  {
    var k := IndexOf(a + b, c);
    assert (a + b)[|a|] == c;
  }

  /** Reads `WORD` followed by `sep`, `tag` and a decimal integer back as the lower-cased word and the integer. */
  function ParseTagged(s: string, sep: char, tag: char): Option<(string, int)> {
    var i := IndexOf(s, sep);
    if i + 2 <= |s| && s[i + 1] == tag && IsUpperWord(s[..i]) then
      match ParseInt(s[i + 2..])
      case Some(k) => Some((Lower(s[..i]), k))
      case None => None
    else None
  }

  /** What `ParseTagged` returns once the word, the separator, the tag and the integer are located. */
  lemma ParseTaggedOfParts(s: string, sep: char, tag: char, w: string, k: int)
    requires IndexOf(s, sep) == |w| && |w| + 2 <= |s| && s[|w| + 1] == tag
    requires s[..|w|] == w && IsUpperWord(w) && ParseInt(s[|w| + 2..]) == Some(k)
    ensures ParseTagged(s, sep, tag) == Some((Lower(w), k))
  {
  }

  lemma ParseTaggedRoundTrip(name: string, sep: char, tag: char, k: int)
    requires IsLowerWord(name) && !IsUpper(sep)
    ensures ParseTagged(Upper(name) + [sep, tag] + IntToDecimal(k), sep, tag) == Some((name, k))
  {
    var u := Upper(name);
    var digits := IntToDecimal(k);
    var rest := [sep, tag] + digits;
    var s := u + [sep, tag] + digits;
    assert s == u + rest;
    UpperOfLowerWord(name);
    IndexOfAfterPrefix(u, rest, sep);
    assert s[|u| + 1] == tag;
    assert s[..|u|] == u;
    assert s[|u| + 2..] == digits;
    IntRoundTrip(k);
    ParseTaggedOfParts(s, sep, tag, u, k);
    LowerUpperInverse(name);
  }
}

=== FILE: weight_files.dfy ===
/**
 Where the resolver looks for weights: the file name derived from a model name
 and a scale, joined onto the models directory with POSIX `os.path.join`.
 The parser shows the naming convention loses nothing: a candidate path names
 exactly one (model, scale) pair.
 */
module WeightFiles {
  import opened Wrappers
  import opened Text

  /** `os.path.join(dir, file)` on POSIX: an absolute `file` replaces `dir`; otherwise one `/` separates them. */
  function JoinPath(dir: string, file: string): string {
    if |file| > 0 && file[0] == '/' then file
    else if dir == [] || dir[|dir| - 1] == '/' then dir + file
    else dir + "/" + file
  }

  /** `f"{name.upper()}_x{scale}.pb"` */
  function WeightFileName(name: string, scale: int): string {
    Upper(name) + "_x" + IntToDecimal(scale) + ".pb"
  }

  /** The path the resolver tests with `os.path.isfile` for a model at a scale. */
  function CandidatePath(dir: string, name: string, scale: int): string {
    JoinPath(dir, WeightFileName(name, scale))
  }

  /** Splits `NAME_xSCALE.pb` back into the model key and the scale. */
  function ParseWeightFileName(f: string): Option<(string, int)> {
    if |f| >= 3 && f[|f| - 3..] == ".pb" then ParseTagged(f[..|f| - 3], '_', 'x') else None
  }

  /** The weight-file naming convention is invertible on registry keys. */
  lemma WeightFileNameRoundTrip(name: string, scale: int)
    requires IsLowerWord(name)
    ensures ParseWeightFileName(WeightFileName(name, scale)) == Some((name, scale))
  {
    var body := Upper(name) + "_x" + IntToDecimal(scale);
    var f := WeightFileName(name, scale);
    assert f == body + ".pb";
    assert f[|f| - 3..] == ".pb";
    assert f[..|f| - 3] == body;
    assert "_x" == ['_', 'x'];
    ParseTaggedRoundTrip(name, '_', 'x', scale);
  }

  /**
   The shape of a POSIX join: an absolute file name replaces the directory; a
   relative one follows the directory, separated by exactly one `/` unless the
   directory is empty or already ends in `/`.
   */
  lemma JoinPathShape(dir: string, file: string)
    ensures |file| > 0 && file[0] == '/' ==> JoinPath(dir, file) == file
    ensures !(|file| > 0 && file[0] == '/') ==>
      var sep := if dir == [] || dir[|dir| - 1] == '/' then 0 else 1;
      var r := JoinPath(dir, file);
      && |r| == |dir| + sep + |file|
      && r[..|dir|] == dir
      && (sep == 1 ==> r[|dir|] == '/')
      && r[|dir| + sep..] == file
  {
    if !(|file| > 0 && file[0] == '/') && !(dir == [] || dir[|dir| - 1] == '/') {
      var r := JoinPath(dir, file);
      assert r == dir + ("/" + file);
      assert r[|dir|..] == "/" + file;
    }
  }

  /** Joining onto the same directory keeps relative file names apart. */
  lemma JoinPathCancel(dir: string, f1: string, f2: string)
    requires |f1| > 0 && f1[0] != '/'
    requires |f2| > 0 && f2[0] != '/'
    requires JoinPath(dir, f1) == JoinPath(dir, f2)
    ensures f1 == f2
  {
    var prefix := if dir == [] || dir[|dir| - 1] == '/' then dir else dir + "/";
    assert JoinPath(dir, f1) == prefix + f1;
    assert JoinPath(dir, f2) == prefix + f2;
    assert (prefix + f1)[|prefix|..] == f1;
    assert (prefix + f2)[|prefix|..] == f2;
  }

  /** Distinct (model, scale) candidates never share a path. */
  lemma CandidatePathInjective(dir: string, n1: string, s1: int, n2: string, s2: int)
    requires IsLowerWord(n1) && IsLowerWord(n2)
    requires CandidatePath(dir, n1, s1) == CandidatePath(dir, n2, s2)
    ensures n1 == n2 && s1 == s2
  {
    UpperOfLowerWord(n1);
    UpperOfLowerWord(n2);
    var f1 := WeightFileName(n1, s1);
    var f2 := WeightFileName(n2, s2);
    assert f1[0] == Upper(n1)[0];
    assert f2[0] == Upper(n2)[0];
    JoinPathCancel(dir, f1, f2);
    WeightFileNameRoundTrip(n1, s1);
    WeightFileNameRoundTrip(n2, s2);
  }

  /** The contrapositive: different (model, scale) pairs are looked up at different paths. */
  lemma CandidatePathsDiffer(dir: string, n1: string, s1: int, n2: string, s2: int)
    requires IsLowerWord(n1) && IsLowerWord(n2)
    requires n1 != n2 || s1 != s2
    ensures CandidatePath(dir, n1, s1) != CandidatePath(dir, n2, s2)
  {
    if CandidatePath(dir, n1, s1) == CandidatePath(dir, n2, s2) {
      CandidatePathInjective(dir, n1, s1, n2, s2);
    }
  }
}

=== FILE: wrappers.dfy ===
/** The optional value Python expresses as `Optional[...]` / `None`. */
module Wrappers {

  datatype Option<+T> = None | Some(value: T)

}
